=== FILE: README.md ===
# Camera manager bookkeeping, modelled in Dafny

This project models the bookkeeping core of a USB camera streaming server. There are three parts.

- **The frame queue** (`FrameQueue`). This is Python's `queue.Queue(maxsize=buffer_size)` as a sequence whose head is the oldest entry. It covers the drop-oldest insertion done by `_process_frame`, the FIFO pop done by `get_frame`, and the drain done by `stop`.
- **The camera manager** (`Camera`, `CameraRuns`). `CameraManager` from camera.py is modelled as a sequential state machine. One state record holds `is_running`, `is_connected`, whether the capture thread is still in its loop, the capture object, the queue, the last frame time, the reconnect attempt count and the statistics. `start`, `stop`, `get_frame`, `get_status`, restart, and one iteration of `_capture_loop` are pure functions from state to state. The device's answers are parameters: the path check, `isOpened`, exceptions while opening, and `read`. So are the clock readings. main.py has an older copy of the manager. It differs only in the device-path check, so both copies are one model that takes a `Source` parameter.
- **The configuration update** (`Config`, `ConfigEndpoint`). This covers `ConfigManager.update_config` in config.py and the `PUT /config` endpoint in main.py. Each does a one-level merge of the update into `asdict(config)`, then keyword construction of the dataclasses, and that construction can raise. Python dataclasses do not check field types, so a constructed configuration is modelled as a map from field name to a JSON-like `Value`. `TypedCamera` reads the typed `CameraConfig` that the manager runs on out of such a map.

The state-machine invariant `Camera.Valid` holds in every state reachable from `Camera.New`:

- a connected manager holds an opened capture object;
- a live worker implies `is_running`;
- a stopped manager is disconnected;
- the queue holds at most `buffer_size` entries when `buffer_size >= 1`;
- the attempt count never passes `max(max_reconnect_attempts, 0)`.

Behaviours of the code that are easy to miss, which the model follows:

- `start` does not reset the statistics. Only a successful device initialisation resets the attempt count.
- After the worker gives up reconnecting, `is_running` is already clear. That makes `stop` a no-op, so frames queued before the device was lost stay queued and `get_frame` still returns them (`CameraRuns.StaleFramesSurviveExhaustion`).
- With `auto_reconnect` off, a disconnected worker leaves its loop but does not clear `is_running`. `start` then returns True without launching a worker (`CameraRuns.NoAutoReconnectBreaks`).
- A failed `isOpened()` check leaves the unopened capture object in `self.cap`.

## Model

| member | source | states |
|---|---|---|
| `FrameQueue.Offer` | camera.py:170-181 | An unbounded queue (`maxsize <= 0`) just appends. A bounded queue within its bound keeps the newest `maxsize` entries of old queue plus new entry. It counts exactly one drop when the queue was full and none otherwise. The `queue.Full` branch of `put_nowait` is therefore never taken. |
| `FrameQueue.OfferAllKeepsNewest` | camera.py:22 | For any sequence of pushes into a queue of capacity `n >= 1`, the queue holds exactly the `n` most recent frames in push order, so never more than `n`. |
| `FrameQueue.OfferAllCountsDrops` | camera.py:171-174 | Over any sequence of pushes, the drop count equals the number of frames that no longer fit. |
| `FrameQueue.DropOldestScenario` | camera.py:170-179 | Capacity 2 with pushes A, B, C leaves [B, C] and one drop. |
| `FrameQueue.FifoNoRepeat` | camera.py:164-218 | For any interleaving of pushes and reads from an empty queue: the bound holds; the frames that left (read or evicted) followed by those still queued are exactly the pushed frames in push order; and if the pushed frames are distinct, no frame is handed to a reader twice. |
| `FrameQueue.Clear` | camera.py:79-86 | The drain loop empties the queue and counts exactly as many entries as it held. |
| `Camera.New` | camera.py:16-32 | A new manager is stopped, disconnected and without a device. Its queue is empty and its counters are zero. It satisfies the invariant. |
| `Camera.CheckPath` | camera.py:96-99 | camera.py reports a missing device only for a non-empty path that does not exist, and never raises. main.py accepts only a non-empty existing path, and raises for None. |
| `Camera.MainPathCheckStricter` | main.py:220-223 | main.py accepts a device path only where camera.py does. The two copies disagree exactly when the path is None or empty. |
| `Camera.InitializeCamera` | camera.py:93-128 | Returns True exactly when the path check passes and the device opens. Success sets `is_connected`, stores an opened capture and resets the attempt count to 0. An exception adds one connection error. Failure keeps the flag and the count. The capture object changes only when `VideoCapture` was created; a failed `isOpened()` leaves the unopened object stored, and an exception while setting properties leaves the opened one. No other field changes. |
| `Camera.Start` | camera.py:36-49 | On a running manager it returns True and changes nothing. Otherwise it returns the result of initialisation and sets `is_running` and launches the worker only when that succeeds, resetting the attempt count to 0. It never touches the queue, the configuration, the last frame time or any statistic other than connection errors, which grow by one exactly when initialisation raises. |
| `Camera.StartTwice` | camera.py:38-40 | After a successful start, a second start returns True and changes nothing, so there is still one worker. |
| `Camera.Stop` | camera.py:51-91 | On a stopped manager it is a no-op. Otherwise it leaves both flags clear, the worker gone, no capture object and an empty queue. It never resets statistics, the attempt count or the last frame time. |
| `Camera.StopIdempotent` | camera.py:53-55 | Stopping twice is the same as stopping once. |
| `Camera.Restart` | main.py:856-869 | A restart always re-initialises the device and succeeds exactly when that does; it leaves the manager running, with a live worker and connected, only on success. A running manager comes back with an empty queue, a stopped one keeps its queue. The frame counters are unchanged, and connection errors grow by one exactly when initialisation raises. |
| `Camera.ProcessFrame` | camera.py:164-181 | Sets the last frame time to the frame's timestamp and adds exactly 1 to `frames_captured`. With `buffer_size >= 1` the queue becomes the newest `buffer_size` entries and `frames_dropped` grows by one exactly when the queue was full. With `buffer_size <= 0` the queue just grows. Nothing else changes. |
| `Camera.HandleCaptureFailure` | camera.py:183-192 | Clears `is_connected`, adds 1 to `connection_errors` and leaves no capture object. Nothing else changes. |
| `Camera.AttemptReconnect` | camera.py:194-211 | At or above the maximum it clears `is_running` and changes nothing else. Below it, a failed reopen leaves the count one higher. A successful one resets the count to 0, connects, and records the reconnect time. The last frame time is kept, and the only other statistic that changes is connection errors, by one exactly when the reopen raises. |
| `Camera.CaptureFrame` | camera.py:157-162 | Without a capture object, or with an unopened one, the read reports failure. With an opened one it reports what the device returned. |
| `Camera.Step` | camera.py:130-155 | A worker that has left its loop does nothing. A disconnected worker with auto-reconnect off leaves the loop and changes nothing else. With auto-reconnect on it makes one reconnect attempt and stays in the loop exactly when it was below the maximum. A connected worker queues a frame it read, as `_process_frame` does, and the frame becomes the newest entry; a failed read is handled as `_handle_capture_failure` does; an exception from the read only clears `is_connected`. Unless it broke out for lack of auto-reconnect, the worker stays in its loop exactly while `is_running` holds. |
| `Camera.GetFrame` | camera.py:213-218 | Returns None, changing nothing, exactly when the queue is empty. Otherwise it returns the oldest entry and removes only that entry. |
| `Camera.Status` | camera.py:220-234 | The last frame age is absent exactly when the last frame time is 0; otherwise it is `now` minus that time. The queue size, attempt count, flags, statistics and uptime are reported as held. |
| `Camera.StatusReportsFrameAge` | camera.py:231 | After a frame stamped with a non-zero time is processed, the status reports that frame's age. |
| `Camera.HandlePreservesValid` | camera.py:164-211 | Every public call and every loop iteration keeps the invariant, never lowers a counter, and keeps the configuration. |
| `Camera.RunPreservesValid` | camera.py:130-155 | Any sequence of calls and loop iterations keeps the invariant and never lowers a counter. |
| `Camera.StatusBounds` | main.py:294-305 | For both copies, starting from construction with `buffer_size >= 1` and after any history, the reported queue size is at most `buffer_size` and the reported attempt count is at most `max(max_reconnect_attempts, 0)`. |
| `Camera.CopiesAgreeOnDevicePath` | main.py:137-357 | main.py's manager and camera.py's behave identically for every call whenever the device path is a non-empty string. |
| `CameraRuns.FailedAttempt` | camera.py:201-211 | Below the ceiling, an iteration whose reopen fails adds exactly one attempt and keeps the worker reconnecting. |
| `CameraRuns.FailingReconnectsExhaust` | camera.py:194-201 | With auto-reconnect on and every reopen failing, a worker with `a` attempts stops after exactly `ceiling - a + 1` iterations, where the ceiling is `max(max_reconnect_attempts, 0)`. At that point `is_running` is clear, the count equals that ceiling, and the queue is untouched. |
| `CameraRuns.ThreeAttemptsScenario` | camera.py:134-141 | With a maximum of 3 and every reopen failing, four iterations after the device is lost the worker has stopped with 3 attempts counted. |
| `CameraRuns.StoppedWorkerIsIdle` | camera.py:134 | Once the worker has left its loop, further iterations change nothing. So no reconnect is attempted until `start` runs again. |
| `CameraRuns.NoAutoReconnectBreaks` | camera.py:136-141 | With auto-reconnect off, a disconnected worker breaks out at once and keeps `is_running` set. A later `start` returns True without changing anything. A stop followed by a start reinitialises. |
| `CameraRuns.StaleFramesSurviveExhaustion` | camera.py:194-199 | After the worker gives up, `stop` is a no-op and `get_frame` still returns the oldest frame queued before the device was lost. |
| `CameraRuns.ReadFailureDisconnects` | main.py:267-272 | A failed read on a connected worker disconnects it, releases the device and counts one connection error. The worker keeps running and will reconnect when auto-reconnect is on. |
| `Config.Construct` | config.py:118-121 | Keyword construction succeeds exactly when the given value is a mapping whose keys are all field names. The result has every field. Given fields take the given values and the others keep their defaults. |
| `Config.FillLists` | config.py:36-40 | A None `cors_origins` or `trusted_hosts` becomes ["*"]. Provided values and other fields are left untouched. No list field is left None. |
| `Config.DefaultConfig` | config.py:74-77 | The default configuration is well formed, and both of its server lists are ["*"]. |
| `Config.CameraDefaultsAre` | config.py:13-22 | The camera defaults are device 0 at /dev/video0, 640x480 at 30 fps, buffer 2, quality 80, auto-reconnect on, interval 5 and at most 10 attempts. |
| `Config.TypedCameraRoundTrip` | config.py:10-22 | Reading back the dictionary of any typed camera configuration gives it back. |
| `Config.CameraSectionFields` | config.py:10-22 | The dictionary of any typed camera configuration has exactly the dataclass's fields, the keys of the defaults. |
| `Config.MergeUpdate` | config.py:111-115 | The merge loop yields the reference one-level merge whatever order it visits the keys in. |
| `Config.UpdateConfig` | config.py:105-127 | On failure the stored configuration is unchanged. On success the stored configuration is the returned one, built from the merged dictionary. |
| `Config.UpdateSucceedsIff` | config.py:118-121 | From a well-formed configuration, an update succeeds exactly when each camera or server entry it carries is a dictionary of known fields. A bad camera entry is the error reported. |
| `Config.UpdateMergesOneLevel` | config.py:108-115 | After a successful update, each camera field named by the update holds the new value verbatim, so a nested dictionary is not merged further. Every other field keeps its old value. The server section is merged the same way and then has its None lists filled. |
| `Config.UpdatePreservesWellFormed` | config.py:118-125 | A successful update from a well-formed configuration gives a well-formed one. |
| `Config.EmptyUpdateKeepsConfig` | config.py:105-127 | An empty update returns the stored configuration unchanged. |
| `Config.UpdateIgnoresOtherKeys` | config.py:114-121 | Top-level keys other than camera and server do not affect the outcome. |
| `ConfigEndpoint.AppPostInit` | main.py:56-60 | Fills a None server list with ["*"], keeps provided values and does not touch the camera section. |
| `ConfigEndpoint.BuildMainAgrees` | main.py:952-955 | main.py fills the lists in `AppConfig` while config.py fills them in `ServerConfig`. Both build the same configuration and fail the same way. |
| `ConfigEndpoint.UpdateEndpoint` | main.py:938-965 | The endpoint answers 400, leaving the stored configuration untouched, exactly when construction fails. Otherwise it stores the same configuration as `update_config`. |

## Left out

- Threads, `Event`s and the lock. Every call and every loop iteration is one atomic step, and `stop` is assumed to see the worker leave its loop. The ten-second `join` timeout and interleavings of the reader and the producer are not modelled.
- OpenCV calls (`VideoCapture`, `set`/`get`, `read`, `release`, `imencode`). Their outcomes are parameters. An exception from `release` is not modelled. Neither is any exception inside the capture loop other than one raised by `read`.
- Time. `time.sleep` and the `get_frame` wait are not modelled. `time.time()` readings are integer parameters. `last_reconnect` stores the reconnect time instead of an ISO string, and uptime and frame age are integer differences.
- JSON file I/O: `load_config`, `save_config` and `reload_config`. A save that fails is logged and swallowed by the source, so the model leaves it out.
- The FastAPI application, other than the `PUT /config` merge: the other endpoints, middleware, the HTML page and the multipart framing in `generate_frames`. signal_handler.py and logging_config.py are not part of this model.
- The Windows default of a None device path. The defaults are the POSIX ones.
- Floating-point configuration values, and Python's treatment of `bool` as an `int`. `TypedCamera` keeps them apart.
- `Config.Construct`: does not say which unknown keyword the `TypeError` names, because Python reports the first one in the dictionary's order.

=== FILE: camera.dfy ===
/** The camera manager (`CameraManager` in camera.py, and its earlier copy in
    main.py) as a sequential state machine. Every public call and every
    iteration of the capture loop is a pure function from one manager state to
    the next; what the device, the filesystem and the clock answer is passed in
    as a parameter. The two copies differ only in the device-path check, which
    `CheckPath` takes from the `Source` argument. */
module Camera {
  import opened Wrappers
  import opened FrameQueue
  import Config

  /** The raw image a successful read returns; the manager never looks inside it. */
  type Image = seq<bv8>

  /** A queue entry: the `(frame, timestamp)` pair `get_frame` hands out. */
  datatype Entry = Entry(image: Image, time: int)

  /** A `cv2.VideoCapture` object held in `self.cap`, and whether `isOpened()`. */
  datatype Capture = Capture(isOpen: bool)

  datatype Stats = Stats(
    framesCaptured: nat,
    framesDropped: nat,
    connectionErrors: nat,
    lastReconnect: Option<int>,
    uptimeStart: int)

  /** The manager's state. `workerAlive` says whether the capture thread is still
      inside its `while self.is_running.is_set()` loop. */
  datatype Manager = Manager(
    config: Config.CameraConfig,
    cap: Option<Capture>,
    isRunning: bool,
    isConnected: bool,
    workerAlive: bool,
    queue: seq<Entry>,
    lastFrameTime: int,
    reconnectAttempts: nat,
    stats: Stats)

  /** Which copy of the manager is meant: camera.py's or main.py's. */
  datatype Source = CameraModule | MainModule

  /** The most reconnect attempts a manager can have counted. */
  function Ceiling(c: Config.CameraConfig): nat {
    if c.maxReconnectAttempts > 0 then c.maxReconnectAttempts else 0
  }

  /** The invariant every reachable manager state keeps. */
  predicate Valid(m: Manager) {
    && (m.isConnected ==> m.cap == Some(Capture(true)))
    && (m.workerAlive ==> m.isRunning)
    && (!m.isRunning ==> !m.isConnected)
    && Bounded(m.queue, m.config.bufferSize)
    && m.reconnectAttempts <= Ceiling(m.config)
  }

  /** `CameraManager(config)`, created at time `now`: stopped, disconnected, no
      device, empty queue, zero counters. */
  function New(config: Config.CameraConfig, now: int): (m: Manager)
    ensures Valid(m)
    ensures !m.isRunning && !m.isConnected && !m.workerAlive && m.cap.None?
    ensures m.queue == [] && m.lastFrameTime == 0 && m.reconnectAttempts == 0
    ensures m.stats == Stats(0, 0, 0, None, now)
  {
    Manager(config, None, false, false, false, [], 0, 0, Stats(0, 0, 0, None, now))
  }

  // ----- opening the device -----

  datatype PathCheck = PathOk | PathMissing | PathRaises

  /** The device-path check that precedes opening. camera.py skips it when the
      path is None or empty; main.py always calls `os.path.exists`, which is False
      for the empty string and raises TypeError for None. `present` is what the
      filesystem answers for a non-empty path. */
  function CheckPath(src: Source, path: Option<string>, present: bool): (r: PathCheck)
    ensures src == CameraModule ==> r != PathRaises
    ensures src == CameraModule ==> (r == PathMissing <==> path.Some? && path.value != "" && !present)
    ensures src == MainModule ==> (r == PathOk <==> path.Some? && path.value != "" && present)
    ensures src == MainModule ==> (r == PathRaises <==> path.None?)
  {
    match src
    case CameraModule =>
      if path.Some? && path.value != "" && !present then PathMissing else PathOk
    case MainModule =>
      match path
      case None => PathRaises
      case Some(p) => if p != "" && present then PathOk else PathMissing
  }

  /** main.py accepts a device path only where camera.py does, and the two
      disagree exactly when the path is None or empty. */
  lemma MainPathCheckStricter(path: Option<string>, present: bool)
    ensures CheckPath(MainModule, path, present) == PathOk ==> CheckPath(CameraModule, path, present) == PathOk
    ensures (CheckPath(MainModule, path, present) == PathOk) != (CheckPath(CameraModule, path, present) == PathOk)
            <==> path.None? || path.value == ""
  {
  }

  /** How `cv2.VideoCapture(index)` and the configuration that follows it went:
      the constructor raised; the object was created but is not opened; it opened
      but `set`/`get` raised; or it opened and was configured. */
  datatype OpenResult = OpenRaised | NotOpened | ConfigureRaised | Opened

  /** The device's answers to one `_initialize_camera` call. */
  datatype Probe = Probe(pathExists: bool, open: OpenResult)

  datatype Started = Started(manager: Manager, ok: bool)

  /** Whether `_initialize_camera` lands in its `except` branch. */
  predicate InitRaises(src: Source, c: Config.CameraConfig, p: Probe) {
    var check := CheckPath(src, c.devicePath, p.pathExists);
    check == PathRaises || (check == PathOk && (p.open == OpenRaised || p.open == ConfigureRaised))
  }

  /** Whether `_initialize_camera` returns True. */
  predicate InitSucceeds(src: Source, c: Config.CameraConfig, p: Probe) {
    CheckPath(src, c.devicePath, p.pathExists) == PathOk && p.open == Opened
  }

  /** `_initialize_camera`. Success opens the device, sets `is_connected` and
      resets the attempt count; an exception counts one connection error; a
      created-but-unopened capture object is left in `self.cap`; failures leave
      the connection flag and attempt count alone. */
  function InitializeCamera(src: Source, m: Manager, p: Probe): (r: Started)
    ensures r.ok <==> InitSucceeds(src, m.config, p)
    ensures r.ok ==> r.manager.isConnected && r.manager.cap == Some(Capture(true)) && r.manager.reconnectAttempts == 0
    ensures !r.ok ==> r.manager.isConnected == m.isConnected && r.manager.reconnectAttempts == m.reconnectAttempts
    ensures r.manager.stats == m.stats.(connectionErrors := m.stats.connectionErrors + if InitRaises(src, m.config, p) then 1 else 0)
    ensures r.manager == m.(cap := r.manager.cap, isConnected := r.manager.isConnected,
                            reconnectAttempts := r.manager.reconnectAttempts, stats := r.manager.stats)
    ensures r.manager.cap != m.cap ==> CheckPath(src, m.config.devicePath, p.pathExists) == PathOk && p.open != OpenRaised
    ensures CheckPath(src, m.config.devicePath, p.pathExists) == PathOk && p.open == NotOpened ==>
              r.manager.cap == Some(Capture(false))
    ensures CheckPath(src, m.config.devicePath, p.pathExists) == PathOk && p.open == ConfigureRaised ==>
              r.manager.cap == Some(Capture(true))
  {
    match CheckPath(src, m.config.devicePath, p.pathExists)
    case PathMissing => Started(m, false)
    case PathRaises => Started(CountError(m), false)
    case PathOk =>
      match p.open
      case OpenRaised => Started(CountError(m), false)
      case NotOpened => Started(m.(cap := Some(Capture(false))), false)
      case ConfigureRaised => Started(CountError(m.(cap := Some(Capture(true)))), false)
      case Opened => Started(m.(cap := Some(Capture(true)), isConnected := true, reconnectAttempts := 0), true)
  }

  function CountError(m: Manager): Manager {
    m.(stats := m.stats.(connectionErrors := m.stats.connectionErrors + 1))
  }

  // ----- public lifecycle -----

  /** `start`: on a running manager it returns True and changes nothing;
      otherwise it initialises the device and, only if that succeeds, sets
      `is_running` and launches the capture worker; it returns whether it did. */
  function Start(src: Source, m: Manager, p: Probe): (r: Started)
    ensures m.isRunning ==> r == Started(m, true)
    ensures !m.isRunning ==> (r.ok <==> InitSucceeds(src, m.config, p))
    ensures !m.isRunning ==> r.manager.isRunning == r.ok
    ensures !m.isRunning && r.ok ==> r.manager.workerAlive && r.manager.isConnected
    ensures !m.isRunning && !r.ok ==> r.manager.workerAlive == m.workerAlive
    ensures r.manager.queue == m.queue && r.manager.config == m.config && r.manager.lastFrameTime == m.lastFrameTime
    ensures r.manager.stats == m.stats.(connectionErrors := m.stats.connectionErrors +
                                          if !m.isRunning && InitRaises(src, m.config, p) then 1 else 0)
    ensures !m.isRunning ==> r.manager.reconnectAttempts == (if r.ok then 0 else m.reconnectAttempts)
    ensures r.manager.cap != m.cap ==>
              !m.isRunning && CheckPath(src, m.config.devicePath, p.pathExists) == PathOk && p.open != OpenRaised
  {
    if m.isRunning then Started(m, true)
    else
      var init := InitializeCamera(src, m, p);
      if init.ok then Started(init.manager.(isRunning := true, workerAlive := true), true)
      else init
  }

  /** `stop`: a no-op on a stopped manager; otherwise it clears both flags, waits
      for the worker to leave its loop, releases and forgets the capture object and
      drains the queue (the drain loop is `FrameQueue.Clear`, which leaves it
      empty, hence `queue := []` here). Counters, the attempt count and the last
      frame time are kept. */
  function Stop(m: Manager): (r: Manager)
    ensures !m.isRunning ==> r == m
    ensures m.isRunning ==> !r.isRunning && !r.isConnected && !r.workerAlive && r.cap.None? && r.queue == []
    ensures r.stats == m.stats && r.reconnectAttempts == m.reconnectAttempts
    ensures r.config == m.config && r.lastFrameTime == m.lastFrameTime
  {
    if !m.isRunning then m
    else m.(isRunning := false, isConnected := false, workerAlive := false, cap := None, queue := [])
  }

  /** Stopping twice is stopping once. */
  lemma StopIdempotent(m: Manager)
    ensures Stop(Stop(m)) == Stop(m)
  {
  }

  /** After a successful start, a second start returns True and changes nothing,
      so there is still exactly one worker. */
  lemma StartTwice(src: Source, m: Manager, p1: Probe, p2: Probe)
    requires Start(src, m, p1).ok
    ensures Start(src, Start(src, m, p1).manager, p2) == Started(Start(src, m, p1).manager, true)
  {
  }

  /** `restart` (the `POST /camera/restart` endpoint):
      `stop`, a settling delay, then `start`, returning its result. */
  function Restart(src: Source, m: Manager, p: Probe): (r: Started)
    ensures r.ok <==> InitSucceeds(src, m.config, p)
    ensures r.manager.isRunning == r.ok && (r.ok ==> r.manager.workerAlive && r.manager.isConnected)
    ensures r.manager.queue == (if m.isRunning then [] else m.queue)
    ensures r.manager.stats.framesCaptured == m.stats.framesCaptured
    ensures r.manager.stats.framesDropped == m.stats.framesDropped
    ensures r.manager.stats.connectionErrors == m.stats.connectionErrors + (if InitRaises(src, m.config, p) then 1 else 0)
  {
    Start(src, Stop(m), p)
  }

  // ----- the capture worker -----

  /** `_process_frame`: stamp the frame with `now`, count it, and queue it,
      evicting the oldest entry (and counting a drop) when the queue is full. */
  function ProcessFrame(m: Manager, image: Image, now: int): (r: Manager)
    ensures r.lastFrameTime == now
    ensures r.stats.framesCaptured == m.stats.framesCaptured + 1
    ensures m.config.bufferSize >= 1 && |m.queue| <= m.config.bufferSize ==>
              && r.queue == Newest(m.queue + [Entry(image, now)], m.config.bufferSize)
              && |r.queue| <= m.config.bufferSize
              && r.stats.framesDropped == m.stats.framesDropped + (if |m.queue| == m.config.bufferSize then 1 else 0)
    ensures m.config.bufferSize <= 0 ==>
              r.queue == m.queue + [Entry(image, now)] && r.stats.framesDropped == m.stats.framesDropped
    ensures r == m.(lastFrameTime := now, queue := r.queue,
                    stats := m.stats.(framesCaptured := r.stats.framesCaptured, framesDropped := r.stats.framesDropped))
  {
    var offered := Offer(m.queue, m.config.bufferSize, Entry(image, now));
    m.(lastFrameTime := now, queue := offered.queue,
       stats := m.stats.(framesCaptured := m.stats.framesCaptured + 1,
                         framesDropped := m.stats.framesDropped + offered.drops))
  }

  /** `_handle_capture_failure`: disconnected, one more connection error, and the
      capture object released and forgotten. */
  function HandleCaptureFailure(m: Manager): (r: Manager)
    ensures !r.isConnected && r.cap.None?
    ensures r.stats.connectionErrors == m.stats.connectionErrors + 1
    ensures r == m.(isConnected := false, cap := None, stats := m.stats.(connectionErrors := r.stats.connectionErrors))
  {
    CountError(m).(isConnected := false, cap := None)
  }

  /** `_attempt_reconnect`: at the ceiling it clears `is_running` and changes
      nothing else; below it, it counts one more attempt and initialises the
      device, recording `now` as the last reconnect when that succeeds (which also
      resets the count to zero). */
  function AttemptReconnect(src: Source, m: Manager, p: Probe, now: int): (r: Manager)
    ensures m.reconnectAttempts >= m.config.maxReconnectAttempts ==> r == m.(isRunning := false)
    ensures m.reconnectAttempts < m.config.maxReconnectAttempts ==>
              && r.isRunning == m.isRunning
              && (InitSucceeds(src, m.config, p) ==>
                    r.reconnectAttempts == 0 && r.isConnected && r.stats.lastReconnect == Some(now))
              && (!InitSucceeds(src, m.config, p) ==>
                    r.reconnectAttempts == m.reconnectAttempts + 1 && r.isConnected == m.isConnected
                    && r.stats.lastReconnect == m.stats.lastReconnect)
    ensures r.queue == m.queue && r.config == m.config && r.workerAlive == m.workerAlive
    ensures r.lastFrameTime == m.lastFrameTime
    ensures r.stats.(lastReconnect := m.stats.lastReconnect) ==
            m.stats.(connectionErrors := m.stats.connectionErrors +
                       if m.reconnectAttempts < m.config.maxReconnectAttempts && InitRaises(src, m.config, p) then 1 else 0)
  {
    if m.reconnectAttempts >= m.config.maxReconnectAttempts then m.(isRunning := false)
    else
      var init := InitializeCamera(src, m.(reconnectAttempts := m.reconnectAttempts + 1), p);
      if init.ok then init.manager.(stats := init.manager.stats.(lastReconnect := Some(now)))
      else init.manager
  }

  /** What one `cap.read()` does: a frame, `ret == False`, or an exception. */
  datatype ReadResult = ReadOk(image: Image) | ReadFailed | ReadRaised

  /** `_capture_frame`: no read at all, and `(False, None)`, when there is no
      capture object or it is not opened. */
  function CaptureFrame(m: Manager, read: ReadResult): (r: ReadResult)
    ensures (m.cap.None? || !m.cap.value.isOpen) ==> r == ReadFailed
    ensures m.cap == Some(Capture(true)) ==> r == read
  {
    if m.cap.None? || !m.cap.value.isOpen then ReadFailed else read
  }

  /** Everything the outside world answers during one loop iteration. */
  datatype Tick = Tick(probe: Probe, read: ReadResult, now: int)

  /** One iteration of `_capture_loop` followed by its `while` test. A disconnected
      worker reconnects when auto-reconnect is on and otherwise breaks out of the
      loop without clearing `is_running`; a connected worker reads one frame and
      queues it, or handles the failure; an exception from the read only clears
      `is_connected`. */
  function Step(src: Source, m: Manager, t: Tick): (r: Manager)
    ensures !m.workerAlive ==> r == m
    ensures m.workerAlive && m.isRunning && !m.isConnected && !m.config.autoReconnect ==>
              r == m.(workerAlive := false)
    ensures m.workerAlive && m.isRunning && !m.isConnected && m.config.autoReconnect ==>
              && r == AttemptReconnect(src, m, t.probe, t.now).(workerAlive := r.isRunning)
              && (r.workerAlive <==> m.reconnectAttempts < m.config.maxReconnectAttempts)
    ensures m.workerAlive && m.isRunning && m.isConnected ==>
              match CaptureFrame(m, t.read)
              case ReadOk(image) =>
                && r == ProcessFrame(m, image, t.now)
                && (Bounded(m.queue, m.config.bufferSize) ==> r.queue[|r.queue| - 1] == Entry(image, t.now))
              case ReadFailed => r == HandleCaptureFailure(m)
              case ReadRaised => r == m.(isConnected := false)
    ensures r.workerAlive ==> m.workerAlive && r.isRunning
    ensures m.workerAlive && (m.isConnected || m.config.autoReconnect) ==> (r.workerAlive <==> r.isRunning)
    ensures r.config == m.config
  {
    if !m.workerAlive then m
    else if !m.isRunning then m.(workerAlive := false)
    else if !m.isConnected && !m.config.autoReconnect then m.(workerAlive := false)
    else
      var n :=
        if !m.isConnected then AttemptReconnect(src, m, t.probe, t.now)
        else match CaptureFrame(m, t.read)
          case ReadOk(image) => ProcessFrame(m, image, t.now)
          case ReadFailed => HandleCaptureFailure(m)
          case ReadRaised => m.(isConnected := false);
      n.(workerAlive := n.isRunning)
  }

  // ----- readers -----

  datatype Fetched = Fetched(manager: Manager, entry: Option<Entry>)

  /** `get_frame`: the oldest `(frame, timestamp)` pair, removed from the queue,
      or None (after the one-second wait) when the queue is empty. */
  function GetFrame(m: Manager): (r: Fetched)
    ensures |m.queue| == 0 <==> r.entry.None?
    ensures r.entry.None? ==> r.manager == m
    ensures r.entry.Some? ==> [r.entry.value] + r.manager.queue == m.queue && r.manager == m.(queue := r.manager.queue)
  {
    var popped := Pop(m.queue);
    Fetched(m.(queue := popped.rest), popped.item)
  }

  datatype Snapshot = Snapshot(
    isRunning: bool,
    isConnected: bool,
    queueSize: nat,
    reconnectAttempts: nat,
    stats: Stats,
    uptime: int,
    lastFrameAge: Option<int>,
    config: Config.CameraConfig)

  /** `get_status` at time `now`. */
  function Status(m: Manager, now: int): (s: Snapshot)
    ensures s.lastFrameAge.None? <==> m.lastFrameTime == 0
    ensures s.lastFrameAge.Some? ==> s.lastFrameAge.value == now - m.lastFrameTime
    ensures s.queueSize == |m.queue| && s.reconnectAttempts == m.reconnectAttempts
    ensures s.isRunning == m.isRunning && s.isConnected == m.isConnected
    ensures s.stats == m.stats && s.uptime == now - m.stats.uptimeStart && s.config == m.config
  {
    Snapshot(m.isRunning, m.isConnected, |m.queue|, m.reconnectAttempts, m.stats,
             now - m.stats.uptimeStart,
             if m.lastFrameTime != 0 then Some(now - m.lastFrameTime) else None,
             m.config)
  }

  /** Once a frame stamped with a non-zero time is processed, the status reports
      its age, measured from that frame's timestamp. */
  lemma StatusReportsFrameAge(m: Manager, image: Image, stamp: int, now: int)
    requires stamp != 0
    ensures Status(ProcessFrame(m, image, stamp), now).lastFrameAge == Some(now - stamp)
  {
  }

  // ----- every call, and the invariant they keep -----

  datatype Event =
    | StartCall(probe: Probe)
    | StopCall
    | RestartCall(probe: Probe)
    | LoopIteration(tick: Tick)
    | GetFrameCall

  function Handle(src: Source, m: Manager, e: Event): Manager {
    match e
    case StartCall(p) => Start(src, m, p).manager
    case StopCall => Stop(m)
    case RestartCall(p) => Restart(src, m, p).manager
    case LoopIteration(t) => Step(src, m, t)
    case GetFrameCall => GetFrame(m).manager
  }

  /** Counters only grow, and the process start time never changes. */
  predicate StatsGrow(a: Stats, b: Stats) {
    && a.framesCaptured <= b.framesCaptured
    && a.framesDropped <= b.framesDropped
    && a.connectionErrors <= b.connectionErrors
    && a.uptimeStart == b.uptimeStart
  }

  /** Every public call and every loop iteration keeps the invariant (so the
      queue never holds more than `buffer_size` entries and the attempt count
      never passes the maximum), never shrinks a counter, and keeps the
      configuration. */
  lemma HandlePreservesValid(src: Source, m: Manager, e: Event)
    requires Valid(m)
    ensures Valid(Handle(src, m, e))
    ensures StatsGrow(m.stats, Handle(src, m, e).stats)
    ensures Handle(src, m, e).config == m.config
  {
  }

  function Run(src: Source, m: Manager, events: seq<Event>): Manager
    decreases |events|
  {
    if |events| == 0 then m else Run(src, Handle(src, m, events[0]), events[1..])
  }

  /** Any sequence of calls and loop iterations keeps the invariant and never
      shrinks a counter. */
  lemma {:induction false} RunPreservesValid(src: Source, m: Manager, events: seq<Event>)
    requires Valid(m)
    ensures Valid(Run(src, m, events))
    ensures StatsGrow(m.stats, Run(src, m, events).stats)
    ensures Run(src, m, events).config == m.config
    decreases |events|
  {
    if |events| > 0 {
      HandlePreservesValid(src, m, events[0]);
      RunPreservesValid(src, Handle(src, m, events[0]), events[1..]);
    }
  }

  /** From construction with `buffer_size >= 1`, whatever happens, the reported
      queue size stays within `buffer_size` and the reported attempt count within
      the configured maximum. */
  lemma StatusBounds(src: Source, config: Config.CameraConfig, created: int, events: seq<Event>, now: int)
    requires config.bufferSize >= 1
    ensures Status(Run(src, New(config, created), events), now).queueSize <= config.bufferSize
    ensures Status(Run(src, New(config, created), events), now).reconnectAttempts <= Ceiling(config)
  {
    RunPreservesValid(src, New(config, created), events);
  }

  /** The two copies of the manager behave identically whenever the configured
      device path is a non-empty string. */
  lemma CopiesAgreeOnDevicePath(m: Manager, e: Event)
    requires m.config.devicePath.Some? && m.config.devicePath.value != ""
    ensures Handle(MainModule, m, e) == Handle(CameraModule, m, e)
  {
  }
}

=== FILE: camera_runs.dfy ===
/** Runs of the capture loop: what a sequence of loop iterations does when the
    device cannot be reopened, when auto-reconnect is off, and after the worker
    has given up. */
module CameraRuns {
  import opened Wrappers
  import opened Camera

  /** Iterates the capture loop once per tick. */
  function Loop(src: Source, m: Manager, ticks: seq<Tick>): Manager
    decreases |ticks|
  {
    if |ticks| == 0 then m else Loop(src, Step(src, m, ticks[0]), ticks[1..])
  }

  /** Every tick's probe fails to open the device. */
  predicate AllOpensFail(src: Source, m: Manager, ticks: seq<Tick>) {
    forall i :: 0 <= i < |ticks| ==> !InitSucceeds(src, m.config, ticks[i].probe)
  }

  /** A running, disconnected worker with auto-reconnect on. */
  predicate Reconnecting(m: Manager) {
    m.workerAlive && m.isRunning && !m.isConnected && m.config.autoReconnect
  }

  /** While every reopening fails, each iteration below the ceiling counts exactly
      one more attempt and keeps the worker reconnecting. */
  lemma FailedAttempt(src: Source, m: Manager, t: Tick)
    requires Valid(m) && Reconnecting(m)
    requires m.reconnectAttempts < Ceiling(m.config)
    requires !InitSucceeds(src, m.config, t.probe)
    ensures Valid(Step(src, m, t)) && Reconnecting(Step(src, m, t))
    ensures Step(src, m, t).reconnectAttempts == m.reconnectAttempts + 1
    ensures Step(src, m, t).queue == m.queue && Step(src, m, t).config == m.config
  {
    HandlePreservesValid(src, m, LoopIteration(t));
  }

  /** With auto-reconnect on and every reopening failing, a worker that has made
      `a` attempts gives up after exactly `ceiling - a + 1` more iterations: the
      count stops at the configured maximum, `is_running` is cleared, the worker
      leaves its loop, and the queued frames are left where they were. */
  lemma {:induction false} FailingReconnectsExhaust(src: Source, m: Manager, ticks: seq<Tick>)
    requires Valid(m) && Reconnecting(m)
    requires AllOpensFail(src, m, ticks)
    requires |ticks| == Ceiling(m.config) - m.reconnectAttempts + 1
    ensures !Loop(src, m, ticks).isRunning && !Loop(src, m, ticks).workerAlive
    ensures Loop(src, m, ticks).reconnectAttempts == Ceiling(m.config)
    ensures Loop(src, m, ticks).queue == m.queue
    decreases |ticks|
  {
    var next := Step(src, m, ticks[0]);
    if m.reconnectAttempts == Ceiling(m.config) {
      assert next == m.(isRunning := false, workerAlive := false);
      assert Loop(src, next, ticks[1..]) == next;
    } else {
      FailedAttempt(src, m, ticks[0]);
      assert AllOpensFail(src, next, ticks[1..]) by {
        forall i | 0 <= i < |ticks[1..]|
          ensures !InitSucceeds(src, next.config, ticks[1..][i].probe)
        {
          assert ticks[1..][i] == ticks[i + 1];
        }
      }
      FailingReconnectsExhaust(src, next, ticks[1..]);
    }
  }

  /** A worker that has left its loop does nothing more, whatever happens. */
  lemma {:induction false} StoppedWorkerIsIdle(src: Source, m: Manager, ticks: seq<Tick>)
    requires !m.workerAlive
    ensures Loop(src, m, ticks) == m
    decreases |ticks|
  {
    if |ticks| > 0 {
      StoppedWorkerIsIdle(src, Step(src, m, ticks[0]), ticks[1..]);
    }
  }

  /** `max_reconnect_attempts = 3`, every reopening failing: four iterations after
      losing the device the worker has stopped with the attempt count at 3. */
  lemma ThreeAttemptsScenario(src: Source, m: Manager, ticks: seq<Tick>)
    requires Valid(m) && Reconnecting(m) && m.reconnectAttempts == 0
    requires m.config.maxReconnectAttempts == 3
    requires |ticks| == 4 && AllOpensFail(src, m, ticks)
    ensures !Loop(src, m, ticks).isRunning && !Loop(src, m, ticks).workerAlive
    ensures Loop(src, m, ticks).reconnectAttempts == 3
  {
    FailingReconnectsExhaust(src, m, ticks);
  }

  /** With auto-reconnect off, a disconnected worker breaks out of its loop at
      once but leaves `is_running` set, so `start` then reports success without
      launching a new worker; only `stop` followed by `start` brings it back. */
  lemma NoAutoReconnectBreaks(src: Source, m: Manager, t: Tick, p: Probe)
    requires m.workerAlive && m.isRunning && !m.isConnected && !m.config.autoReconnect
    ensures Step(src, m, t) == m.(workerAlive := false)
    ensures Step(src, m, t).isRunning
    ensures Start(src, Step(src, m, t), p) == Started(Step(src, m, t), true)
    ensures Start(src, Stop(Step(src, m, t)), p).ok <==> InitSucceeds(src, m.config, p)
  {
  }

  /** After the worker gives up, frames queued before the device was lost are
      still handed out, and `stop` is a no-op that does not drain them. */
  lemma StaleFramesSurviveExhaustion(src: Source, m: Manager, ticks: seq<Tick>)
    requires Valid(m) && Reconnecting(m) && |m.queue| > 0
    requires AllOpensFail(src, m, ticks)
    requires |ticks| == Ceiling(m.config) - m.reconnectAttempts + 1
    ensures Stop(Loop(src, m, ticks)) == Loop(src, m, ticks)
    ensures GetFrame(Loop(src, m, ticks)).entry == Some(m.queue[0])
  {
    FailingReconnectsExhaust(src, m, ticks);
  }

  /** A connected worker whose read fails ends up disconnected with the device
      released and one more connection error, ready to reconnect on the next
      iteration. */
  lemma ReadFailureDisconnects(src: Source, m: Manager, t: Tick)
    requires Valid(m) && m.workerAlive && m.isConnected
    requires t.read == ReadFailed
    ensures !Step(src, m, t).isConnected && Step(src, m, t).cap.None?
    ensures Step(src, m, t).stats.connectionErrors == m.stats.connectionErrors + 1
    ensures Step(src, m, t).workerAlive && Step(src, m, t).isRunning
    ensures m.config.autoReconnect ==> Reconnecting(Step(src, m, t))
  {
  }
}

=== FILE: config.dfy ===
/** The configuration of config.py: the `CameraConfig` and `ServerConfig`
    dataclasses seen as the field maps `dataclasses.asdict` produces, keyword
    construction `Cls(**fields)` (which raises on an unknown keyword or a
    non-mapping), `ServerConfig.__post_init__`, and `ConfigManager.update_config`
    with the file write left out.

    Python dataclasses do not check field types, so a constructed configuration is
    a map from field name to an arbitrary JSON-like value; `TypedCamera` reads the
    typed `CameraConfig` the camera manager works with out of such a map. */
module Config {
  import opened Wrappers

  /** A JSON-like Python value as it appears in a configuration dictionary. */
  datatype Value =
    | Null
    | Bool(b: bool)
    | Int(i: int)
    | Str(s: string)
    | List(items: seq<Value>)
    | Dict(entries: map<string, Value>)

  /** The fields of one dataclass instance, as `asdict` lists them. */
  type Section = map<string, Value>

  datatype ConfigError =
    | MissingSection(section: string)    // KeyError on `current['camera']` / `current['server']`
    | NotAMapping(section: string)       // TypeError: argument after ** must be a mapping
    | UnexpectedKeyword(section: string) // TypeError: got an unexpected keyword argument

  const CameraSectionName := "camera"
  const ServerSectionName := "server"

  /** `CameraConfig()` on a POSIX host. */
  function CameraDefaults(): Section {
    map[
      "device_index" := Int(0),
      "device_path" := Str("/dev/video0"),
      "width" := Int(640),
      "height" := Int(480),
      "fps" := Int(30),
      "buffer_size" := Int(2),
      "jpeg_quality" := Int(80),
      "auto_reconnect" := Bool(true),
      "reconnect_interval" := Int(5),
      "max_reconnect_attempts" := Int(10)
    ]
  }

  /** The field defaults of `ServerConfig`, before `__post_init__` runs. */
  function ServerDefaults(): Section {
    map[
      "host" := Str("0.0.0.0"),
      "port" := Int(8000),
      "log_level" := Str("info"),
      "log_file" := Str("camera_stream.log"),
      "cors_origins" := Null,
      "trusted_hosts" := Null,
      "max_frame_age" := Int(5)
    ]
  }

  /** `Cls(**given)` for a dataclass all of whose fields have defaults: it raises
      unless `given` is a mapping whose keys are all field names, and fields not
      given keep their defaults. */
  function Construct(section: string, defaults: Section, given: Value): (r: Result<Section, ConfigError>)
    ensures r.Success? <==> given.Dict? && given.entries.Keys <= defaults.Keys
    ensures r.Success? ==> r.value.Keys == defaults.Keys
    ensures r.Success? ==> forall k :: k in given.entries ==> r.value[k] == given.entries[k]
    ensures r.Success? ==> forall k :: k in defaults && k !in given.entries ==> r.value[k] == defaults[k]
  {
    if !given.Dict? then Failure(NotAMapping(section))
    else if !(given.entries.Keys <= defaults.Keys) then Failure(UnexpectedKeyword(section))
    else Success(defaults + given.entries)
  }

  const ListFields: set<string> := {"cors_origins", "trusted_hosts"}
  const Wildcard: Value := List([Str("*")])

  /** `ServerConfig.__post_init__`: a None `cors_origins` or `trusted_hosts` becomes
      `["*"]`; every other field, and every list that was provided, is kept. */
  function FillLists(s: Section): (r: Section)
    ensures r.Keys == s.Keys
    ensures forall k :: k in s && s[k] != Null ==> r[k] == s[k]
    ensures forall k :: k in s && k !in ListFields ==> r[k] == s[k]
    ensures forall k :: k in s && k in ListFields ==> r[k] != Null
    ensures forall k :: k in s && k in ListFields && s[k] == Null ==> r[k] == Wildcard
  {
    map k | k in s :: if k in ListFields && s[k] == Null then Wildcard else s[k]
  }

  /** An `AppConfig`: one constructed camera section and one server section. */
  datatype AppConfig = AppConfig(camera: Section, server: Section)

  /** `asdict(config)`: a fresh nested dictionary, so merging into it never
      touches the stored configuration. */
  function AsDict(c: AppConfig): map<string, Value> {
    map[CameraSectionName := Dict(c.camera), ServerSectionName := Dict(c.server)]
  }

  /** A configuration built by the constructors: every field present, and both
      lists filled in by `__post_init__`. */
  predicate WellFormed(c: AppConfig) {
    && c.camera.Keys == CameraDefaults().Keys
    && c.server.Keys == ServerDefaults().Keys
    && (forall k :: k in ListFields ==> c.server[k] != Null)
  }

  /** `AppConfig(camera=CameraConfig(), server=ServerConfig())`. */
  function DefaultConfig(): (c: AppConfig)
    ensures WellFormed(c)
    ensures c.server["cors_origins"] == Wildcard && c.server["trusted_hosts"] == Wildcard
  {
    AppConfig(CameraDefaults(), FillLists(ServerDefaults()))
  }

  /** The reference meaning of update_config's loop: a top-level key whose current
      and new values are both dictionaries is merged one level deep (`dict.update`);
      any other key in the update replaces the current value; keys the update does
      not mention are kept. */
  function Merge(current: map<string, Value>, update: map<string, Value>): (r: map<string, Value>)
    ensures r.Keys == current.Keys + update.Keys
  {
    map k | k in current.Keys + update.Keys ::
      if k !in update then current[k] else MergedEntry(current, k, update[k])
  }

  /** What one `current[key] = ...` assignment of update_config stores: the two
      dictionaries' union when both sides are dictionaries, the new value otherwise. */
  function MergedEntry(current: map<string, Value>, key: string, value: Value): Value {
    if key in current && current[key].Dict? && value.Dict? then Dict(current[key].entries + value.entries)
    else value
  }

  /** The update restricted to the keys outside `pending`. */
  function Handled(update: map<string, Value>, pending: set<string>): map<string, Value> {
    map k | k in update && k !in pending :: update[k]
  }

  /** Handling one more key of the update adds that key's entry to the merge. */
  lemma MergeOneMore(current: map<string, Value>, update: map<string, Value>, pending: set<string>, key: string)
    requires pending <= update.Keys && key in pending
    ensures Handled(update, pending - {key}) == Handled(update, pending)[key := update[key]]
    ensures Merge(current, Handled(update, pending - {key}))
         == Merge(current, Handled(update, pending))[key := MergedEntry(Merge(current, Handled(update, pending)), key, update[key])]
  {
    var h := Handled(update, pending);
    assert Handled(update, pending - {key}) == h[key := update[key]];
  }

  /** update_config's `for key, value in new_config_data.items()` loop, visiting
      the keys in whatever order the dictionary yields them. */
  method MergeUpdate(current: map<string, Value>, update: map<string, Value>) returns (merged: map<string, Value>)
    ensures merged == Merge(current, update)
  {
    merged := current;
    var pending := update.Keys;
    assert Handled(update, pending) == map[];
    assert Merge(current, map[]) == current;
    while pending != {}
      invariant pending <= update.Keys
      invariant merged == Merge(current, Handled(update, pending))
      decreases pending
    {
      var key :| key in pending;
      var value := update[key];
      MergeOneMore(current, update, pending, key);
      if key in merged && merged[key].Dict? && value.Dict? {
        merged := merged[key := Dict(merged[key].entries + value.entries)];
      } else {
        merged := merged[key := value];
      }
      pending := pending - {key};
    }
    assert Handled(update, pending) == update;
  }

  /** Builds `AppConfig(camera=CameraConfig(**current['camera']),
      server=ServerConfig(**current['server']))`, camera first. */
  function Build(merged: map<string, Value>): Result<AppConfig, ConfigError> {
    if CameraSectionName !in merged then Failure(MissingSection(CameraSectionName))
    else match Construct(CameraSectionName, CameraDefaults(), merged[CameraSectionName])
      case Failure(e) => Failure(e)
      case Success(camera) =>
        if ServerSectionName !in merged then Failure(MissingSection(ServerSectionName))
        else match Construct(ServerSectionName, ServerDefaults(), merged[ServerSectionName])
          case Failure(e) => Failure(e)
          case Success(server) => Success(AppConfig(camera, FillLists(server)))
  }

  /** What update_config computes from the stored configuration and the update. */
  function Updated(store: AppConfig, update: map<string, Value>): Result<AppConfig, ConfigError> {
    Build(Merge(AsDict(store), update))
  }

  /** An update entry for one section is acceptable when it is absent, or a
      dictionary naming only fields of that section. */
  predicate SectionAccepted(update: map<string, Value>, name: string, defaults: Section) {
    name !in update || (update[name].Dict? && update[name].entries.Keys <= defaults.Keys)
  }

  /** The section after the merge: the old fields overwritten by the new ones. */
  function MergedSection(prior: Section, update: map<string, Value>, name: string): Section {
    if name in update && update[name].Dict? then prior + update[name].entries else prior
  }

  /** `ConfigManager.update_config` with `save_config` left out: on success the
      stored configuration becomes the returned one; on failure the exception
      leaves the stored configuration as it was. */
  method UpdateConfig(store: AppConfig, update: map<string, Value>) returns (stored: AppConfig, outcome: Result<AppConfig, ConfigError>)
    ensures outcome.Failure? ==> stored == store
    ensures outcome.Success? ==> stored == outcome.value
    ensures outcome == Updated(store, update)
  {
    var current := MergeUpdate(AsDict(store), update);
    outcome := Build(current);
    if outcome.Success? {
      stored := outcome.value;
    } else {
      stored := store;
    }
  }

  /** What the merge leaves under the two section keys of a stored configuration. */
  lemma MergeOfStore(store: AppConfig, update: map<string, Value>)
    ensures var merged := Merge(AsDict(store), update);
            && merged[CameraSectionName] ==
                 (if CameraSectionName in update && !update[CameraSectionName].Dict? then update[CameraSectionName]
                  else Dict(MergedSection(store.camera, update, CameraSectionName)))
            && merged[ServerSectionName] ==
                 (if ServerSectionName in update && !update[ServerSectionName].Dict? then update[ServerSectionName]
                  else Dict(MergedSection(store.server, update, ServerSectionName)))
  {
  }

  /** Overriding every default leaves just the overrides. */
  lemma OverrideCovers(defaults: Section, given: Section)
    requires defaults.Keys <= given.Keys
    ensures defaults + given == given
  {
  }

  /** From a well-formed configuration, an update succeeds exactly when each of
      the camera and server entries it carries is a dictionary of known fields;
      the error names the first section that fails (camera before server). */
  lemma UpdateSucceedsIff(store: AppConfig, update: map<string, Value>)
    requires WellFormed(store)
    ensures Updated(store, update).Success? <==>
              SectionAccepted(update, CameraSectionName, CameraDefaults())
              && SectionAccepted(update, ServerSectionName, ServerDefaults())
    ensures !SectionAccepted(update, CameraSectionName, CameraDefaults()) ==>
              Updated(store, update).Failure? && Updated(store, update).error.section == CameraSectionName
  {
    MergeOfStore(store, update);
  }

  /** The sections a successful update builds, before any field is looked at. */
  lemma BuiltSections(store: AppConfig, update: map<string, Value>)
    requires WellFormed(store)
    requires Updated(store, update).Success?
    ensures Updated(store, update).value.camera == MergedSection(store.camera, update, CameraSectionName)
    ensures Updated(store, update).value.server == FillLists(MergedSection(store.server, update, ServerSectionName))
  {
    MergeOfStore(store, update);
    UpdateSucceedsIff(store, update);
    OverrideCovers(CameraDefaults(), MergedSection(store.camera, update, CameraSectionName));
    OverrideCovers(ServerDefaults(), MergedSection(store.server, update, ServerSectionName));
  }

  /** A successful update merges each section one level deep: every camera field
      the update names takes the new value verbatim (a nested dictionary is not
      merged further), every other field keeps its old value, and the server
      section is merged the same way before `__post_init__` fills a None list with
      ["*"]. */
  lemma UpdateMergesOneLevel(store: AppConfig, update: map<string, Value>)
    requires WellFormed(store)
    requires Updated(store, update).Success?
    ensures Updated(store, update).value.server == FillLists(MergedSection(store.server, update, ServerSectionName))
    ensures forall k :: k in store.camera && (CameraSectionName !in update || k !in update[CameraSectionName].entries) ==>
              Updated(store, update).value.camera[k] == store.camera[k]
    ensures CameraSectionName in update ==>
              forall k :: k in update[CameraSectionName].entries ==>
                Updated(store, update).value.camera[k] == update[CameraSectionName].entries[k]
  {
    BuiltSections(store, update);
  }

  /** An update keeps the configuration well formed. */
  lemma UpdatePreservesWellFormed(store: AppConfig, update: map<string, Value>)
    requires WellFormed(store)
    ensures Updated(store, update).Success? ==> WellFormed(Updated(store, update).value)
  {
    if Updated(store, update).Success? {
      BuiltSections(store, update);
      UpdateSucceedsIff(store, update);
    }
  }

  /** An empty update returns the stored configuration unchanged. */
  lemma EmptyUpdateKeepsConfig(store: AppConfig)
    requires WellFormed(store)
    ensures Updated(store, map[]) == Success(store)
  {
    UpdateSucceedsIff(store, map[]);
    BuiltSections(store, map[]);
    assert FillLists(store.server) == store.server;
  }

  /** Top-level keys other than camera and server are merged but then never read:
      the update behaves as if they were absent. */
  lemma UpdateIgnoresOtherKeys(store: AppConfig, update: map<string, Value>)
    ensures Updated(store, update) ==
            Updated(store, map k | k in update && k in {CameraSectionName, ServerSectionName} :: update[k])
  {
    var trimmed := map k | k in update && k in {CameraSectionName, ServerSectionName} :: update[k];
    var m1 := Merge(AsDict(store), update);
    var m2 := Merge(AsDict(store), trimmed);
    assert m1[CameraSectionName] == m2[CameraSectionName];
    assert m1[ServerSectionName] == m2[ServerSectionName];
  }

  // ----- the typed camera configuration the manager runs on -----

  datatype CameraConfig = CameraConfig(
    deviceIndex: int,
    devicePath: Option<string>,
    width: int,
    height: int,
    fps: int,
    bufferSize: int,
    jpegQuality: int,
    autoReconnect: bool,
    reconnectInterval: int,
    maxReconnectAttempts: int)

  function PathValue(p: Option<string>): Value {
    match p
    case None => Null
    case Some(s) => Str(s)
  }

  /** `asdict` of a typed camera configuration. */
  function CameraSection(c: CameraConfig): Section {
    map[
      "device_index" := Int(c.deviceIndex),
      "device_path" := PathValue(c.devicePath),
      "width" := Int(c.width),
      "height" := Int(c.height),
      "fps" := Int(c.fps),
      "buffer_size" := Int(c.bufferSize),
      "jpeg_quality" := Int(c.jpegQuality),
      "auto_reconnect" := Bool(c.autoReconnect),
      "reconnect_interval" := Int(c.reconnectInterval),
      "max_reconnect_attempts" := Int(c.maxReconnectAttempts)
    ]
  }

  predicate IsInt(s: Section, k: string) {
    k in s && s[k].Int?
  }

  /** Reads a camera section whose fields all hold values of their declared types. */
  function TypedCamera(s: Section): Option<CameraConfig> {
    if && IsInt(s, "device_index") && "device_path" in s && (s["device_path"].Null? || s["device_path"].Str?)
       && IsInt(s, "width") && IsInt(s, "height") && IsInt(s, "fps") && IsInt(s, "buffer_size")
       && IsInt(s, "jpeg_quality") && "auto_reconnect" in s && s["auto_reconnect"].Bool?
       && IsInt(s, "reconnect_interval") && IsInt(s, "max_reconnect_attempts")
    then
      Some(CameraConfig(
        s["device_index"].i,
        if s["device_path"].Str? then Some(s["device_path"].s) else None,
        s["width"].i, s["height"].i, s["fps"].i, s["buffer_size"].i, s["jpeg_quality"].i,
        s["auto_reconnect"].b, s["reconnect_interval"].i, s["max_reconnect_attempts"].i))
    else None
  }

  /** Reading back the dictionary of a typed configuration gives it back. */
  lemma TypedCameraRoundTrip(c: CameraConfig)
    ensures TypedCamera(CameraSection(c)) == Some(c)
  {
    var s := CameraSection(c);
    assert IsInt(s, "device_index") && IsInt(s, "width") && IsInt(s, "height") && IsInt(s, "fps");
    assert IsInt(s, "buffer_size") && IsInt(s, "jpeg_quality");
    assert IsInt(s, "reconnect_interval") && IsInt(s, "max_reconnect_attempts");
  }

  /** A typed configuration's dictionary has exactly the fields of the defaults. */
  lemma CameraSectionFields(c: CameraConfig)
    ensures CameraSection(c).Keys == CameraDefaults().Keys
  {
  }

  /** The camera defaults: device 0 at /dev/video0, 640x480 at 30 fps, a buffer
      of 2 frames, JPEG quality 80, reconnecting every 5 seconds at most 10 times. */
  lemma CameraDefaultsAre()
    ensures TypedCamera(CameraDefaults()) ==
            Some(CameraConfig(0, Some("/dev/video0"), 640, 480, 30, 2, 80, true, 5, 10))
  {
  }
}

=== FILE: config_endpoint.dfy ===
/** The configuration update of main.py: its own copy of the dataclasses, in
    which the None lists are filled in by `AppConfig.__post_init__` instead of
    `ServerConfig.__post_init__`, and the `PUT /config` endpoint that repeats
    update_config's merge and answers 400 when construction raises. */
module ConfigEndpoint {
  import opened Wrappers
  import opened Config

  /** main.py's `AppConfig.__post_init__`: fills a None `cors_origins` or
      `trusted_hosts` of the server section with ["*"]. */
  function AppPostInit(c: AppConfig): (r: AppConfig)
    ensures r.camera == c.camera && r.server.Keys == c.server.Keys
    ensures forall k :: k in c.server && k in ListFields ==> r.server[k] != Null
    ensures forall k :: k in c.server && k in ListFields && c.server[k] == Null ==> r.server[k] == Wildcard
    ensures forall k :: k in c.server && c.server[k] != Null ==> r.server[k] == c.server[k]
  {
    AppConfig(c.camera, FillLists(c.server))
  }

  /** main.py's construction: `ServerConfig(**...)` has no `__post_init__` there,
      so the lists are filled when the `AppConfig` is built around it. */
  function BuildMain(merged: map<string, Value>): Result<AppConfig, ConfigError> {
    if CameraSectionName !in merged then Failure(MissingSection(CameraSectionName))
    else match Construct(CameraSectionName, CameraDefaults(), merged[CameraSectionName])
      case Failure(e) => Failure(e)
      case Success(camera) =>
        if ServerSectionName !in merged then Failure(MissingSection(ServerSectionName))
        else match Construct(ServerSectionName, ServerDefaults(), merged[ServerSectionName])
          case Failure(e) => Failure(e)
          case Success(server) => Success(AppPostInit(AppConfig(camera, server)))
  }

  /** Filling the lists in the AppConfig or in the ServerConfig builds the same
      configuration from the same merged dictionary, and fails the same way. */
  lemma BuildMainAgrees(merged: map<string, Value>)
    ensures BuildMain(merged) == Build(merged)
  {
  }

  const BadRequest := 400

  datatype Reply = Accepted | Rejected(status: int)

  /** `PUT /config`: the same merge as update_config; on success the configuration
      is saved and stored; when construction raises, the stored configuration is
      left alone and the request is answered with status 400. */
  method UpdateEndpoint(store: AppConfig, update: map<string, Value>) returns (stored: AppConfig, reply: Reply)
    ensures reply == Accepted || reply == Rejected(BadRequest)
    ensures reply.Rejected? <==> Updated(store, update).Failure?
    ensures reply.Rejected? ==> stored == store
    ensures reply.Accepted? ==> stored == Updated(store, update).value
  {
    var current := MergeUpdate(AsDict(store), update);
    var built := BuildMain(current);
    BuildMainAgrees(current);
    if built.Success? {
      stored := built.value;
      reply := Accepted;
    } else {
      stored := store;
      reply := Rejected(BadRequest);
    }
  }
}

=== FILE: frame_queue.dfy ===
/** The frame buffer: Python's `queue.Queue(maxsize)` taken as a sequence whose
    head is the oldest entry, together with the drop-oldest insertion the capture
    worker performs on it and the drain performed on shutdown.

    As in Python, a `maxsize` of zero or less means the queue has no bound. */
module FrameQueue {
  import opened Wrappers

  /** `Queue.full()`: true only for a bounded queue holding `maxsize` or more entries. */
  predicate Full<T>(q: seq<T>, maxsize: int) {
    0 < maxsize <= |q|
  }

  /** The last `n` entries of `s`, or all of `s` when it is no longer than `n`. */
  function Newest<T>(s: seq<T>, n: nat): (r: seq<T>)
    ensures |r| == if |s| <= n then |s| else n
    ensures r == s[|s| - |r|..]
  {
    if |s| <= n then s else s[|s| - n..]
  }

  /** How many of `total` entries do not fit into `capacity`. */
  function Excess(total: nat, capacity: nat): nat {
    if total <= capacity then 0 else total - capacity
  }

  /** `put_nowait`: None stands for the `queue.Full` exception. */
  function PutNowait<T>(q: seq<T>, maxsize: int, x: T): (r: Option<seq<T>>)
    ensures r.None? <==> Full(q, maxsize)
    ensures r.Some? ==> |r.value| == |q| + 1 && r.value[..|q|] == q && r.value[|q|] == x
  {
    if Full(q, maxsize) then None else Some(q + [x])
  }

  datatype Popped<T> = Popped(item: Option<T>, rest: seq<T>)

  /** `get` / `get_nowait`: the oldest entry and the queue without it; no entry
      (`queue.Empty`, or the timeout of `get(timeout=...)` expiring) when the queue is empty. */
  function Pop<T>(q: seq<T>): (r: Popped<T>)
    ensures r.item.None? <==> |q| == 0
    ensures r.item.Some? ==> [r.item.value] + r.rest == q
    ensures r.item.None? ==> r.rest == q
  {
    if |q| == 0 then Popped(None, q) else Popped(Some(q[0]), q[1..])
  }

  datatype Offered<T> = Offered(queue: seq<T>, drops: nat)

  /** The queue half of the worker's frame processing: when the queue is full, take
      out the oldest entry and count one drop; then `put_nowait` the new entry,
      counting one more drop if that raises `queue.Full`. */
  function Offer<T>(q: seq<T>, maxsize: int, x: T): (r: Offered<T>)
    ensures maxsize <= 0 ==> r == Offered(q + [x], 0)
    ensures 0 < maxsize && |q| <= maxsize ==>
              && r.queue == Newest(q + [x], maxsize)
              && r.drops == (if |q| == maxsize then 1 else 0)
    ensures r.drops <= 2
  {
    var kept := if Full(q, maxsize) then q[1..] else q;
    var evicted := if Full(q, maxsize) then 1 else 0;
    match PutNowait(kept, maxsize, x)
    case Some(q') => Offered(q', evicted)
    case None => Offered(kept, evicted + 1)
  }

  /** Offers every entry of `xs` in order, adding up the drops. */
  function OfferAll<T>(q: seq<T>, maxsize: int, xs: seq<T>): Offered<T>
    decreases |xs|
  {
    if |xs| == 0 then Offered(q, 0)
    else
      var first := Offer(q, maxsize, xs[0]);
      var rest := OfferAll(first.queue, maxsize, xs[1..]);
      Offered(rest.queue, first.drops + rest.drops)
  }

  /** Keeping the newest `n` twice is keeping the newest `n` of everything. */
  lemma NewestOfNewest<T>(a: seq<T>, b: seq<T>, n: nat)
    ensures Newest(Newest(a, n) + b, n) == Newest(a + b, n)
  {
    var l := Newest(Newest(a, n) + b, n);
    var r := Newest(a + b, n);
    assert |l| == |r|;
    forall i | 0 <= i < |l|
      ensures l[i] == r[i]
    {
      var k := |b| - |l| + i;
      if k < 0 {
        assert l[i] == Newest(a, n)[|Newest(a, n)| + k];
      }
    }
  }

  lemma AppendHead<T>(q: seq<T>, xs: seq<T>)
    requires |xs| > 0
    ensures q + [xs[0]] + xs[1..] == q + xs
  {
    assert [xs[0]] + xs[1..] == xs;
  }

  /** A bounded queue fed any sequence of frames holds exactly the `maxsize` most
      recent of them, in push order (so never more than `maxsize`). */
  lemma {:induction false} OfferAllKeepsNewest<T>(q: seq<T>, maxsize: int, xs: seq<T>)
    requires 0 < maxsize && |q| <= maxsize
    ensures OfferAll(q, maxsize, xs).queue == Newest(q + xs, maxsize)
    ensures |OfferAll(q, maxsize, xs).queue| <= maxsize
    decreases |xs|
  {
    if |xs| == 0 {
      assert q + xs == q;
    } else {
      var x, more := xs[0], xs[1..];
      var first := Offer(q, maxsize, x);
      OfferAllKeepsNewest(first.queue, maxsize, more);
      NewestOfNewest(q + [x], more, maxsize);
      AppendHead(q, xs);
    }
  }

  /** Feeding a bounded queue counts one drop for each entry that no longer fits. */
  lemma {:induction false} OfferAllCountsDrops<T>(q: seq<T>, maxsize: int, xs: seq<T>)
    requires 0 < maxsize && |q| <= maxsize
    ensures OfferAll(q, maxsize, xs).drops == Excess(|q| + |xs|, maxsize)
    decreases |xs|
  {
    if |xs| > 0 {
      var first := Offer(q, maxsize, xs[0]);
      assert |first.queue| == if |q| + 1 <= maxsize then |q| + 1 else maxsize;
      OfferAllCountsDrops(first.queue, maxsize, xs[1..]);
    }
  }

  /** Capacity 2, pushes A, B, C: the queue is [B, C] and one frame was dropped. */
  lemma DropOldestScenario()
    ensures OfferAll([], 2, ['A', 'B', 'C']) == Offered(['B', 'C'], 1)
  {
    OfferAllKeepsNewest([], 2, ['A', 'B', 'C']);
    OfferAllCountsDrops([], 2, ['A', 'B', 'C']);
    assert Newest([] + ['A', 'B', 'C'], 2) == ['B', 'C'];
  }

  /** The shutdown drain: `get_nowait` until the queue is empty, counting the
      entries cleared. */
  method Clear<T>(q: seq<T>) returns (rest: seq<T>, cleared: nat)
    ensures rest == []
    ensures cleared == |q|
  {
    rest := q;
    cleared := 0;
    while |rest| > 0
      invariant cleared + |rest| == |q|
      decreases |rest|
    {
      var p := Pop(rest);
      rest := p.rest;
      cleared := cleared + 1;
    }
  }

  // ----- conservation: every entry leaves from the front, in push order -----

  datatype Op<T> = Push(x: T) | Take

  /** An entry leaving the queue: handed to a reader, or evicted to make room. */
  datatype Departure<T> = Delivered(item: T) | Evicted(item: T)

  datatype Trace<T> = Trace(queue: seq<T>, departed: seq<Departure<T>>)

  function Items<T>(d: seq<Departure<T>>): (r: seq<T>)
    ensures |r| == |d|
    ensures forall i :: 0 <= i < |d| ==> r[i] == d[i].item
  {
    seq(|d|, i requires 0 <= i < |d| => d[i].item)
  }

  /** The entries the operations push, in order. */
  function Pushed<T>(ops: seq<Op<T>>): seq<T>
    decreases |ops|
  {
    if |ops| == 0 then []
    else (if ops[0].Push? then [ops[0].x] else []) + Pushed(ops[1..])
  }

  /** One producer push (`Offer`) or one reader pop (`Pop`), recording what left. */
  function Apply<T>(t: Trace<T>, maxsize: int, op: Op<T>): Trace<T> {
    match op
    case Push(x) =>
      var gone := if Full(t.queue, maxsize) then [Evicted(t.queue[0])] else [];
      Trace(Offer(t.queue, maxsize, x).queue, t.departed + gone)
    case Take =>
      var p := Pop(t.queue);
      var gone := if p.item.Some? then [Delivered(p.item.value)] else [];
      Trace(p.rest, t.departed + gone)
  }

  function RunFrom<T>(t: Trace<T>, maxsize: int, ops: seq<Op<T>>): Trace<T>
    decreases |ops|
  {
    if |ops| == 0 then t else RunFrom(Apply(t, maxsize, ops[0]), maxsize, ops[1..])
  }

  predicate Bounded<T>(q: seq<T>, maxsize: int) {
    maxsize <= 0 || |q| <= maxsize
  }

  /** Everything a trace has seen pushed: what left, then what is still queued. */
  function Seen<T>(t: Trace<T>): seq<T> {
    Items(t.departed) + t.queue
  }

  lemma PushConserves<T>(t: Trace<T>, maxsize: int, x: T)
    requires Bounded(t.queue, maxsize)
    ensures Bounded(Apply(t, maxsize, Push(x)).queue, maxsize)
    ensures Seen(Apply(t, maxsize, Push(x))) == Seen(t) + [x]
  {
    var t' := Apply(t, maxsize, Push(x));
    if Full(t.queue, maxsize) {
      var q := t.queue;
      assert t'.queue == q[1..] + [x];
      assert Items(t'.departed) == Items(t.departed) + [q[0]];
      assert [q[0]] + q[1..] == q;
    } else {
      assert t'.queue == t.queue + [x];
      assert Items(t'.departed) == Items(t.departed);
    }
  }

  lemma TakeConserves<T>(t: Trace<T>, maxsize: int)
    requires Bounded(t.queue, maxsize)
    ensures Bounded(Apply(t, maxsize, Take).queue, maxsize)
    ensures Seen(Apply(t, maxsize, Take)) == Seen(t)
  {
    var t' := Apply(t, maxsize, Take);
    if |t.queue| > 0 {
      var q := t.queue;
      assert Items(t'.departed) == Items(t.departed) + [q[0]];
      assert [q[0]] + q[1..] == q;
    } else {
      assert Items(t'.departed) == Items(t.departed);
    }
  }

  /** One operation keeps the bound and appends exactly what it pushes to `Seen`. */
  lemma ApplyConserves<T>(t: Trace<T>, maxsize: int, op: Op<T>)
    requires Bounded(t.queue, maxsize)
    ensures Bounded(Apply(t, maxsize, op).queue, maxsize)
    ensures Seen(Apply(t, maxsize, op)) == Seen(t) + PushedBy(op)
  {
    if op.Push? {
      PushConserves(t, maxsize, op.x);
    } else {
      TakeConserves(t, maxsize);
      assert Seen(t) + [] == Seen(t);
    }
  }

  /** What one operation pushes. */
  function PushedBy<T>(op: Op<T>): seq<T> {
    if op.Push? then [op.x] else []
  }

  lemma PushedCons<T>(ops: seq<Op<T>>)
    requires |ops| > 0
    ensures Pushed(ops) == PushedBy(ops[0]) + Pushed(ops[1..])
  {
  }

  lemma Associative<T>(a: seq<T>, b: seq<T>, c: seq<T>)
    ensures a + b + c == a + (b + c)
  {
  }

  lemma {:induction false} RunFromBounded<T>(t: Trace<T>, maxsize: int, ops: seq<Op<T>>)
    requires Bounded(t.queue, maxsize)
    ensures Bounded(RunFrom(t, maxsize, ops).queue, maxsize)
    decreases |ops|
  {
    if |ops| > 0 {
      ApplyConserves(t, maxsize, ops[0]);
      RunFromBounded(Apply(t, maxsize, ops[0]), maxsize, ops[1..]);
    }
  }

  lemma {:induction false} RunFromConserves<T>(t: Trace<T>, maxsize: int, ops: seq<Op<T>>)
    requires Bounded(t.queue, maxsize)
    ensures Seen(RunFrom(t, maxsize, ops)) == Seen(t) + Pushed(ops)
    decreases |ops|
  {
    if |ops| == 0 {
      assert Pushed(ops) == [];
      assert Seen(t) + [] == Seen(t);
    } else {
      var t' := Apply(t, maxsize, ops[0]);
      ApplyConserves(t, maxsize, ops[0]);
      RunFromConserves(t', maxsize, ops[1..]);
      PushedCons(ops);
      Associative(Seen(t), PushedBy(ops[0]), Pushed(ops[1..]));
    }
  }

  ghost predicate Distinct<T>(s: seq<T>) {
    forall i, j :: 0 <= i < j < |s| ==> s[i] != s[j]
  }

  /** Starting from an empty queue, whatever interleaving of pushes and reads
      happens: the queue stays within its bound; the entries that left it (read or
      evicted), followed by those still queued, are exactly the pushed entries in
      push order, so readers get frames in FIFO order; and when the pushed frames
      are distinct, no frame is handed to a reader twice. */
  lemma FifoNoRepeat<T>(maxsize: int, ops: seq<Op<T>>)
    ensures Bounded(RunFrom(Trace([], []), maxsize, ops).queue, maxsize)
    ensures Seen(RunFrom(Trace([], []), maxsize, ops)) == Pushed(ops)
    ensures Distinct(Pushed(ops)) ==>
              var d := RunFrom(Trace([], []), maxsize, ops).departed;
              forall i, j :: 0 <= i < j < |d| && d[i].Delivered? && d[j].Delivered? ==> d[i].item != d[j].item
  {
    var t := RunFrom(Trace([], []), maxsize, ops);
    RunFromBounded(Trace([], []), maxsize, ops);
    RunFromConserves(Trace([], []), maxsize, ops);
    var empty: Trace<T> := Trace([], []);
    assert Seen(empty) == [];
    if Distinct(Pushed(ops)) {
      var d := t.departed;
      var all := Items(d) + t.queue;
      forall i, j | 0 <= i < j < |d| && d[i].Delivered? && d[j].Delivered?
        ensures d[i].item != d[j].item
      {
        assert all[i] == d[i].item && all[j] == d[j].item;
      }
    }
  }
}

=== FILE: wrappers.dfy ===
/** Wrappers shared by the model: `Option` for Python's `None`-able values and
    `Result` for an operation that may raise. */
module Wrappers {

  datatype Option<+T> = None | Some(value: T)

  datatype Result<+R, +E> = Success(value: R) | Failure(error: E)
}
